=== FILE: README.md ===
# SprintTap room round lifecycle, in Dafny

SprintTap runs timed tapping rounds for players connected to a named room
over websockets. Each client estimates its clock offset to the server. The
server announces a start instant 5 seconds ahead. Clients report their tap
timestamps in local time, plus their offset. The server counts the taps that
fall inside the round window `[start, start + duration]`. It ranks the players
when everybody has submitted or when the round-end timer fires.

This project models that round lifecycle from `server.py`:

- the room table (`rooms`)
- membership (connect and disconnect)
- the `join`, `request_start` and `result` messages
- the clamped sleep of the round-end timer
- `finalize_round`

Each transition is a pure function. It takes a room and returns a `Step`:
the new room plus the effects emitted, in order. The effects are:

- `Broadcast(channels, msg)`: one broadcast, addressed to the channels
  registered at that moment.
- `Reply(channel, msg)`: a reply to the sending connection.
- `FinalizeAt(when)`: the timer that `request_start` schedules.

Python dictionaries become `Dicts.Dict`. It is a sequence of key/value pairs
with distinct keys, and it keeps CPython's insertion order: a new key is
appended, and assigning to a known key replaces the value in place. That
order matters in two places:

- the `presence` user lists;
- the ranking, because Python's `sorted` is stable and so keeps the
  dictionary order among equal scores.

Times are exact `real`s. Floating-point rounding of `t + offset` and of
`now + 5.0` is not modelled.

Files:

- `options.dfy`: `Option`.
- `dicts.dfy`: insertion-ordered dictionaries.
- `validation.dfy`: the in-window count.
- `ranking.dfy`: the stable two-key sort.
- `rooms.dfy`: the room state and its transitions.
- `lifecycle.dfy`: properties of whole rounds and of any interleaving of
  events.
- `registry.dfy`: the room table and the timer.
- `intended.dfy`: the round end the timer's own description promises
  ("finalize if not already done"), as variants next to the code as written.

## Where the code falls short of its own intent

This model follows the code.

- **Second finalization.** `end_round_after` says it finalizes "if not already
  done" (server.py:126), so a second finalization of the same round should be
  a no-op. `finalize_round` has no such guard (server.py:132-135).
  A timer that fires after an early finalization broadcasts a second
  `round_end` that ranks every current member at zero, and it overwrites
  `last_ranking`. As written: `Lifecycle.FinalizeTwice`. Intended:
  `Intended.FinalizeIfRunning`, whose second call changes nothing and
  broadcasts nothing (`Intended.FinalizeIfRunningOnce`).
- **Stale timers.** The timer is keyed by room, not by round (server.py:88,
  125-129). A timer armed by an earlier `request_start` therefore also
  finalizes a round that was restarted later, at the earlier deadline. As
  written: `Lifecycle.StaleTimerEndsRestartedRound`, where starts at 0 and 10
  arm timers for 22 and 32 while the live round runs until 30, and the first
  timer ends it. Intended: `Intended.TimerFor`, a timer that remembers the
  start it was armed for. After a restart the earlier timer does nothing
  (`Intended.RestartDisarmsEarlierTimer`), and each timer ends its round at
  most once (`Intended.TimerForFiresOnce`).
- **Results from non-members.** The early-finalization test
  `len(results) == len(clients)` (server.py:114) only means "everyone has
  submitted" while every result belongs to a member (`Lifecycle.AllSubmittedIffSameSize`).
  The code stores a result for whichever username the connection was opened
  with. That name may no longer be registered: a reconnect under the same
  name, followed by the old connection's disconnect, removes it from
  `clients`. The results-within-members invariant therefore holds only for
  runs in which submitters are registered (`Lifecycle.MembersSubmit`).
  `Lifecycle.OutsiderResultBreaksInvariant` runs exactly that sequence of
  events and shows it failing.

## Model

| member | source | states |
|---|---|---|
| `Dicts.Put` | server.py:54 | assigning `d[k] = v` makes `k` map to `v` and leaves every other key's value as it was; a known key keeps its position, a new key is appended last |
| `Dicts.Remove` | server.py:120-121 | `d.pop(k, None)` leaves `k` absent and other keys' values unchanged; an absent key changes nothing |
| `Dicts.RemoveCutsEntry` | server.py:120-121 | removing a present key cuts exactly its entry out and keeps the remaining entries in their order |
| `Dicts.ValuesAreLookups` | server.py:31 | the channel list taken from `clients.values()` holds exactly the channels some registered name maps to |
| `Validation.ValidCount` | server.py:102-108 | the number of accepted timestamps never exceeds the number reported |
| `Validation.ValidCountIsAcceptedPositions` | server.py:102-108 | the valid count equals the number of positions `i` with `start <= ts[i] + offset <= end` |
| `Validation.AllAcceptedIffFullCount` | server.py:102-108 | the count equals the number of timestamps exactly when every timestamp lands in the window |
| `Validation.NoneAcceptedIffZeroCount` | server.py:102-108 | the count is zero exactly when no timestamp lands in the window |
| `Validation.CountValid` | server.py:102-108 | the validation loop returns the number of accepted positions, at most the number of timestamps |
| `Validation.WindowIsClosed` | server.py:107 | both edges of the window are inclusive; an instant any positive amount before the start or after the end is rejected |
| `Ranking.Insert` | server.py:143-146 | inserting into a sorted ranking gives a sorted ranking holding exactly the old rows plus the new one |
| `Ranking.Sort` | server.py:143-146 | the ranking is ordered by validated taps, then reported taps, best first, and is a permutation of its input |
| `Ranking.SortUsers` | server.py:143-146 | sorting neither adds nor drops nor duplicates a user |
| `Ranking.SortKeepsTiers` | server.py:143-146 | stability: rows with the same validated and reported counts keep their input order |
| `Ranking.StableSortUnique` | server.py:143-146 | two sorted sequences whose equal-score rows appear in the same order are identical, so the stable order is fully determined |
| `Ranking.SortOfSorted` | server.py:143-146 | an already ordered input is returned unchanged |
| `Rooms.ToAll` | server.py:26-38 | a broadcast addresses one channel per registered name: every registered channel and no other |
| `Rooms.Register` | server.py:54-57 | a connection registers its channel under the username, overwriting an older channel without moving the name; nothing else in the room changes; one presence broadcast lists the members |
| `Rooms.Leave` | server.py:118-122 | a disconnect cuts exactly the user's entry out of members and out of results, keeping both orders; an absent user leaves each dictionary as it was; no one else's entry changes; the new presence list is broadcast |
| `Rooms.JoinInfo` | server.py:69-76 | the `join` message only replies to the asking connection with the member list, the start time and the duration |
| `Rooms.RequestStart` | server.py:78-88 | the start time becomes `now + 5` (in the future) and the results are cleared; members, duration and last ranking are kept; everyone hears `start`; the timer is set 2 s after the window closes |
| `Rooms.Record` | server.py:101-110 | the submitter's entry becomes (reported count, number of in-window timestamps, offset), replacing an earlier one in place; other entries, members and start time are unchanged |
| `Rooms.Submit` | server.py:90-115 | with no round only the sender gets `error "no active round"` and nothing changes; otherwise the result is recorded, everyone gets `partial_result`, and the round is finalized at once when there are as many results as members |
| `Rooms.Missing` | server.py:139-141 | exactly the members without a result, each once |
| `Rooms.MissingAppend` | server.py:139-141 | members are judged one at a time in member order: the non-submitters among `a + b` are those among `a` followed by those among `b` |
| `Rooms.ZeroFill` | server.py:139-141 | existing results keep their values and order; every member without one gets a zero entry; the new keys are `Missing`, so they follow member order |
| `Rooms.Standings` | server.py:144 | one ranking row per results entry, with the same users in the same order, each carrying its entry's validated and reported counts |
| `Rooms.Rank` | server.py:137-146 | the ranking is sorted, lists each user once, lists exactly the submitters and members, gives each one their stored scores or zeros, and keeps dictionary order among equal scores |
| `Rooms.Finalize` | server.py:132-151 | finalization stores the ranking as the last ranking, broadcasts exactly one `round_end` with it, and clears start time and results while keeping members and duration |
| `Lifecycle.AllSubmittedIffSameSize` | server.py:114 | with results held only for members, there are never more results than members, and the sizes are equal exactly when every member has submitted |
| `Lifecycle.SubmitFinalizesIffOthersSubmitted` | server.py:110-115 | a member's submission ends the round immediately exactly when all other current members have already submitted |
| `Lifecycle.RankWithoutResults` | server.py:137-146 | with no results every member is ranked at zero in member order |
| `Lifecycle.FinalizeTwice` | server.py:132-151 | a second finalization is not a no-op: it broadcasts another `round_end` ranking every member at zero and overwrites the last ranking |
| `Lifecycle.Apply` | server.py:54-129 | per event: the duration never changes, only connects and disconnects touch the members, `join` and unknown messages change nothing, the last ranking changes only at a finalization that leaves no round, and only a start arms a timer; conversely a start sets the start time to `now + 5` and ends with a timer, a result outside a round changes nothing, a result during a round is stored unless it ended the round, and the timer ends the round with one `round_end`; a connect registers its channel under the user, a disconnect removes the user from members and results, and `join` replies to the asking channel with the members, start time and duration |
| `Lifecycle.StaleTimerEndsRestartedRound` | server.py:125-129 | starting at 0 and restarting at 10 arms timers for 22 and 32 while the live window runs until 30; the first timer ends the live round |
| `Lifecycle.ApplyKeepsResultsFromMembers` | server.py:52-122 | connect, disconnect, join, start, a member's result, the timer and ignored messages all keep results within members |
| `Lifecycle.RunKeepsResultsFromMembers` | server.py:52-151 | in any interleaving where submitters are registered, results stay within members and never outnumber them |
| `Lifecycle.ReconnectThenOldLeaves` | server.py:54-121 | in a room without members, a connect followed by a reconnect under the same name leaves exactly the second channel registered, and the old connection's disconnect then removes that registration, leaving no member at all |
| `Lifecycle.OutsiderResultBreaksInvariant` | server.py:110 | for any name, channels, start time and submission: after connect, reconnect, the old connection's disconnect and a start, the new connection's result is stored for a name that is no longer a member |
| `Registry.NewRoom` | server.py:52 | a fresh room has no members, no results, no round, duration 15 and no ranking, so it satisfies the results-within-members invariant |
| `Registry.GetOrCreate` | server.py:52 | `setdefault` returns the existing room untouched, or files a fresh room with no members, no results, no start time and duration 15; no other room changes |
| `Registry.Connect` | server.py:50-57 | a connection creates the room if needed and then registers the user's channel exactly as `Rooms.Register` does, keeping the room's other members, results, start time and duration; a new room then has only that user; no other room changes |
| `Registry.Handle` | server.py:59-122 | a handler event changes only its own room, which stays in the table |
| `Registry.FinalizeRoom` | server.py:132-135 | an unknown room id does nothing; otherwise that room becomes exactly what `Rooms.Finalize` makes of it, the effects are its single `round_end`, and no other room changes |
| `Registry.Delay` | server.py:127 | the timer's sleep is never negative and wakes no earlier than the target instant, exactly at it when that is still ahead |
| `Registry.TimerOutlastsWindow` | server.py:81-88 | the timer armed by a start sleeps lead + duration + buffer and wakes after the window has closed |
| `Intended.FinalizeIfRunning` | server.py:125-135 | the guarded round end always leaves no round running and sends at most one message: the room as `Rooms.Finalize` leaves it while a round runs, otherwise no change and no message |
| `Intended.FinalizeIfRunningOnce` | server.py:125-135 | a second guarded finalization changes nothing and broadcasts nothing; one call broadcasts at most once |
| `Intended.TimerFor` | server.py:125-129 | a timer remembering its start instant sends something only while that start is still the room's start time, and then finalizes the room |
| `Intended.RestartDisarmsEarlierTimer` | server.py:78-88 | after a restart the earlier start's timer does nothing, and the restart's timer ends the live round with its `round_end` |
| `Intended.TimerForFiresOnce` | server.py:125-129 | a remembering timer ends its round at most once |

## Left out

- FastAPI application, CORS middleware and routing (server.py:10-16, 41): framework set-up, not round logic.
- Websocket accept, receive and send, the `WebSocketState` check, and the swallowing of a failed send in `broadcast` (server.py:31-38, 50, 60): network I/O. A broadcast is one `Broadcast` effect naming the channels registered at that moment; delivery is not modelled.
- The `if not room: return` in `broadcast` (server.py:29-30): rooms are never removed, so a handler's room is always present; `Registry.FinalizeRoom` models the same test in `finalize_round`.
- JSON decoding and encoding, `int()` / `float()` coercions, and the `msg.get(..., default)` fallbacks (server.py:61, 98-100, 106): the model receives already-typed values. The defaults (count 0, offset 0.0, no timestamps) are ordinary arguments to `Rooms.Submit`. What happens after malformed input is covered by the line on messages that fail to decode, below.
- `time.time()` (server.py:22-23): the clock is the `now` parameter.
- `asyncio.create_task` and `asyncio.sleep` (server.py:88, 127): the timer is a `FinalizeAt` effect, its sleep is `Registry.Delay`, and its wake-up is `Registry.FinalizeRoom` on whatever state the room has by then.
- Suspension inside a handler: each handler branch, and each timer wake-up, is one atomic `Lifecycle.Event`. In the source, every `await broadcast(...)` (server.py:36) can suspend a handler, which then reads the room again. The model therefore does not show three behaviours:
  - a non-submitter who disconnects while the `partial_result` broadcast (server.py:112) is in flight makes the size test at server.py:114 pass and ends the round early;
  - two submissions that both reach server.py:115 send two `round_end`s;
  - a `request_start` handled while the `round_end` broadcast (server.py:149) is in flight has its new start time and results wiped by server.py:150-151 after everyone has heard `start`.
- `Lifecycle.SubmitFinalizesIffOthersSubmitted`: holds for the atomic submission step only, because of the suspension described above.
- A message that fails to decode or convert raises an exception other than `WebSocketDisconnect` (server.py:61, 98-100, 106, 118). That handler ends without removing its user from `clients`, and the user then counts as a member until a later connection under the same name disconnects (server.py:54, 120; `Lifecycle.ReconnectThenOldLeaves`). The model covers this as a run in which that user has no `Disconnected` event.
- The `timesync` reply (server.py:64-67): stateless, it only reports the clock.
- IEEE float rounding of timestamps, offsets and start times: times are exact reals, and the duration 15 is the real 15.0.

=== FILE: dicts.dfy ===
/**
  Insertion-ordered dictionaries, the way Python's `dict` behaves: every key
  occurs once, a new key is appended at the end, and assigning to a key that is
  already present replaces its value in place without moving it.
*/
module Dicts {
  import opened Options

  predicate Distinct<T(==)>(s: seq<T>) {
    forall i, j | 0 <= i < j < |s| :: s[i] != s[j]
  }

  function Keys<K, V>(d: seq<(K, V)>): seq<K> {
    seq(|d|, i requires 0 <= i < |d| => d[i].0)
  }

  function Values<K, V>(d: seq<(K, V)>): seq<V> {
    seq(|d|, i requires 0 <= i < |d| => d[i].1)
  }

  /** A dictionary is an association list whose keys are pairwise different. */
  type Dict<K(==), V> = d: seq<(K, V)> | Distinct(Keys(d)) witness []

  /** The values of a dictionary are exactly the values its keys look up. */
  lemma ValuesAreLookups<K, V>(d: Dict<K, V>)
    ensures |Values(d)| == |d|
    ensures forall k | k in Keys(d) :: Lookup(d, k).value in Values(d)
    ensures forall v | v in Values(d) :: exists k :: Lookup(d, k) == Some(v)
  {
    forall k | k in Keys(d) ensures Lookup(d, k).value in Values(d) {
      var i :| 0 <= i < |d| && Keys(d)[i] == k;
      assert Values(d)[i] == d[i].1;
    }
    forall v | v in Values(d) ensures exists k :: Lookup(d, k) == Some(v) {
      var i :| 0 <= i < |d| && Values(d)[i] == v;
      assert Lookup(d, d[i].0) == Some(v);
    }
  }

  /** Every suffix of a dictionary is a dictionary. */
  lemma TailIsDict<K, V>(d: Dict<K, V>)
    requires |d| > 0
    ensures Distinct(Keys(d[1..]))
    ensures d[0].0 !in Keys(d[1..])
  {
    var t := d[1..];
    forall i, j | 0 <= i < j < |t|
      ensures Keys(t)[i] != Keys(t)[j]
    {
      assert Keys(d)[i + 1] == Keys(t)[i] && Keys(d)[j + 1] == Keys(t)[j];
    }
    forall i | 0 <= i < |t|
      ensures Keys(t)[i] != d[0].0
    {
      assert Keys(d)[i + 1] == Keys(t)[i] && Keys(d)[0] == d[0].0;
    }
  }

  /** `d.get(k)`: the value stored under `k`, if any. */
  function Lookup<K, V>(d: Dict<K, V>, k: K): (r: Option<V>)
    ensures r.Some? <==> k in Keys(d)
    ensures forall i | 0 <= i < |d| && d[i].0 == k :: r == Some(d[i].1)
    decreases |d|
  {
    if |d| == 0 then None
    else if d[0].0 == k then
      assert Keys(d)[0] == k;
      assert forall i | 0 < i < |d| :: Keys(d)[i] != k && d[i].0 == Keys(d)[i];
      Some(d[0].1)
    else
      TailIsDict(d);
      var t: Dict<K, V> := d[1..];
      var r := Lookup(t, k);
      assert forall i | 1 <= i < |d| :: d[i] == t[i - 1];
      assert Keys(d) == [d[0].0] + Keys(t);
      r
  }

  /** Looking up in a dictionary built from a first entry and the rest. */
  lemma LookupCons<K, V>(h: (K, V), t: Dict<K, V>, k: K)
    requires h.0 !in Keys(t)
    ensures Keys([h] + t) == [h.0] + Keys(t)
    ensures Distinct(Keys([h] + t))
    ensures Lookup([h] + t, k) == if h.0 == k then Some(h.1) else Lookup(t, k)
  {
    var d := [h] + t;
    assert Keys(d) == [h.0] + Keys(t);
    assert d[1..] == t;
  }

  lemma LookupConsAll<K(!new), V>(h: (K, V), t: Dict<K, V>)
    requires h.0 !in Keys(t)
    ensures Keys([h] + t) == [h.0] + Keys(t)
    ensures Distinct(Keys([h] + t))
    ensures forall k :: Lookup([h] + t, k) == if h.0 == k then Some(h.1) else Lookup(t, k)
  {
    LookupCons(h, t, h.0);
    forall k ensures Lookup([h] + t, k) == if h.0 == k then Some(h.1) else Lookup(t, k) {
      LookupCons(h, t, k);
    }
  }

  /** `d[k] = v`: replaces the value of an existing key in place, or appends a new key. */
  function Put<K(!new), V>(d: Dict<K, V>, k: K, v: V): (r: Dict<K, V>)
    ensures Lookup(r, k) == Some(v)
    ensures forall k' | k' != k :: Lookup(r, k') == Lookup(d, k')
    ensures k in Keys(d) ==> Keys(r) == Keys(d)
    ensures k !in Keys(d) ==> Keys(r) == Keys(d) + [k]
    ensures |r| == if k in Keys(d) then |d| else |d| + 1
    decreases |d|
  {
    if |d| == 0 then
      var r: Dict<K, V> := [(k, v)];
      r
    else
      TailIsDict(d);
      var t: Dict<K, V> := d[1..];
      assert d == [d[0]] + t;
      LookupConsAll(d[0], t);
      if d[0].0 == k then
        LookupConsAll((k, v), t);
        var r: Dict<K, V> := [(k, v)] + t;
        r
      else
        var rt := Put(t, k, v);
        assert d[0].0 !in Keys(rt);
        LookupConsAll(d[0], rt);
        var r: Dict<K, V> := [d[0]] + rt;
        r
  }

  /** `d.pop(k, None)`: drops the entry of `k`, if there is one. */
  function Remove<K(!new), V>(d: Dict<K, V>, k: K): (r: Dict<K, V>)
    ensures Lookup(r, k) == None
    ensures forall k' | k' != k :: Lookup(r, k') == Lookup(d, k')
    ensures k !in Keys(d) ==> r == d
    decreases |d|
  {
    if |d| == 0 then d
    else
      TailIsDict(d);
      var t: Dict<K, V> := d[1..];
      assert d == [d[0]] + t;
      LookupConsAll(d[0], t);
      if d[0].0 == k then
        t
      else
        var rt := Remove(t, k);
        assert Lookup(rt, d[0].0) == Lookup(t, d[0].0);
        assert d[0].0 !in Keys(rt);
        LookupConsAll(d[0], rt);
        var r: Dict<K, V> := [d[0]] + rt;
        r
  }

  /** Removing a key cuts its entry out and keeps the other entries in their order. */
  lemma {:induction false} RemoveCutsEntry<K(!new), V>(d: Dict<K, V>, k: K, i: int)
    requires 0 <= i < |d| && d[i].0 == k
    ensures Remove(d, k) == d[..i] + d[i + 1..]
    decreases i
  {
    TailIsDict(d);
    var t: Dict<K, V> := d[1..];
    if i == 0 {
      assert d[..0] + d[1..] == t;
    } else {
      assert Keys(d)[0] == d[0].0 && Keys(d)[i] == k;
      RemovePastHead(d, k);
      RemoveCutsEntry(t, k, i - 1);
      CutPastHead(d, i);
    }
  }

  lemma RemoveCutsAnyEntry<K(!new), V>(d: Dict<K, V>, k: K)
    ensures forall i | 0 <= i < |d| && d[i].0 == k :: Remove(d, k) == d[..i] + d[i + 1..]
  {
    forall i | 0 <= i < |d| && d[i].0 == k ensures Remove(d, k) == d[..i] + d[i + 1..] {
      RemoveCutsEntry(d, k, i);
    }
  }

  lemma RemovePastHead<K(!new), V>(d: Dict<K, V>, k: K)
    requires |d| > 0 && d[0].0 != k
    ensures Distinct(Keys(d[1..]))
    ensures Remove(d, k) == [d[0]] + Remove(d[1..], k)
  {
    TailIsDict(d);
  }

  lemma CutPastHead<T>(s: seq<T>, i: int)
    requires 0 < i < |s|
    ensures s[..i] + s[i + 1..] == [s[0]] + (s[1..][..i - 1] + s[1..][i..])
  {
    assert s[..i] == [s[0]] + s[1..][..i - 1];
    assert s[i + 1..] == s[1..][i..];
  }

  /** The last element of `a + b`, for a non-empty `b`, and what precedes it. */
  lemma InitOfAppend<T>(a: seq<T>, b: seq<T>)
    requires |b| > 0
    ensures (a + b)[..|a + b| - 1] == a + b[..|b| - 1]
    ensures (a + b)[|a + b| - 1] == b[|b| - 1]
  {
  }

  /** A sequence without repetitions has as many elements as the set of its elements. */
  lemma {:induction false} DistinctCardinality<T>(s: seq<T>)
    requires Distinct(s)
    ensures |set x | x in s| == |s|
  {
    if |s| > 0 {
      var t := s[1..];
      assert Distinct(t) by {
        forall i, j | 0 <= i < j < |t| ensures t[i] != t[j] {
          assert s[i + 1] != s[j + 1];
        }
      }
      DistinctCardinality(t);
      assert s[0] !in t by {
        forall i | 0 <= i < |t| ensures t[i] != s[0] {
          assert s[i + 1] != s[0];
        }
      }
      assert (set x | x in s) == (set x | x in t) + {s[0]};
    }
  }

  /** In a sequence without repetitions every element occurs once. */
  lemma {:induction false} DistinctOccursOnce<T>(s: seq<T>)
    requires Distinct(s)
    ensures forall x | x in multiset(s) :: multiset(s)[x] == 1
  {
    if |s| > 0 {
      var t := s[1..];
      assert s == [s[0]] + t;
      assert Distinct(t) by {
        forall i, j | 0 <= i < j < |t| ensures t[i] != t[j] {
          assert s[i + 1] != s[j + 1];
        }
      }
      assert s[0] !in t by {
        forall i | 0 <= i < |t| ensures t[i] != s[0] {
          assert s[i + 1] != s[0];
        }
      }
      DistinctOccursOnce(t);
    }
  }

  /** An element at two positions occurs at least twice. */
  lemma Repeated<T>(s: seq<T>, i: int, j: int)
    requires 0 <= i < j < |s| && s[i] == s[j]
    ensures multiset(s)[s[i]] >= 2
  {
    assert s == s[..i] + [s[i]] + s[i + 1..j] + [s[j]] + s[j + 1..];
  }

  /** Rearranging a sequence without repetitions gives one without repetitions. */
  lemma DistinctPermutation<T>(a: seq<T>, b: seq<T>)
    requires multiset(a) == multiset(b)
    requires Distinct(a)
    ensures Distinct(b)
  {
    DistinctOccursOnce(a);
    forall i, j | 0 <= i < j < |b|
      ensures b[i] != b[j]
    {
      if b[i] == b[j] {
        Repeated(b, i, j);
        assert false;
      }
    }
  }

}

=== FILE: intended.dfy ===
/**
  The round end that `end_round_after` describes: "finalize if not already
  done" (server.py:126). `Rooms.Finalize` keeps the code as written; the two
  variants here add what that description promises, each in one of the two
  ways the code can fall short of it.
*/
module Intended {
  import opened Options
  import opened Rooms

  /** `finalize_round` with the missing guard: a room with no round running is left alone. */
  function FinalizeIfRunning(room: Room): (s: Step)
    ensures s.room.startTime.None? && |s.out| <= 1
    ensures room.startTime.None? ==> s == Step(room, [])
    ensures room.startTime.Some? ==> s == Finalize(room)
  {
    if room.startTime.None? then Step(room, []) else Finalize(room)
  }

  /**
    A finished round stays finished: a second guarded finalization, such as
    the timer waking after an early finalization, changes nothing and
    broadcasts nothing.
  */
  lemma FinalizeIfRunningOnce(room: Room)
    ensures var first := FinalizeIfRunning(room);
      var second := FinalizeIfRunning(first.room);
      second.room == first.room && second.out == []
    ensures |FinalizeIfRunning(room).out| <= 1
  {
  }

  /**
    A timer that remembers the start instant of the round that armed it and
    ends the room's round only while that round is still the live one.
  */
  function TimerFor(room: Room, armedFor: real): (s: Step)
    ensures s.out != [] ==> room.startTime == Some(armedFor)
    ensures room.startTime == Some(armedFor) ==> s == Finalize(room)
    ensures room.startTime != Some(armedFor) ==> s == Step(room, [])
  {
    if room.startTime == Some(armedFor) then Finalize(room) else Step(room, [])
  }

  /**
    After a restart, the timer armed by the earlier start does nothing, while
    the timer armed by the restart ends the live round with its `round_end`.
  */
  lemma RestartDisarmsEarlierTimer(room: Room, first: real, second: real)
    requires first != second
    ensures var r1 := RequestStart(room, first).room;
      var r2 := RequestStart(r1, second).room;
      && TimerFor(r2, first + LeadSeconds) == Step(r2, [])
      && TimerFor(r2, second + LeadSeconds).room.startTime.None?
      && TimerFor(r2, second + LeadSeconds).out == Finalize(r2).out
  {
  }

  /** Each guarded timer ends its round at most once. */
  lemma TimerForFiresOnce(room: Room, armedFor: real)
    ensures var first := TimerFor(room, armedFor);
      TimerFor(first.room, armedFor) == Step(first.room, [])
  {
  }

}

=== FILE: lifecycle.dfy ===
/**
  Properties of whole rounds: the early-finalization test, repeated
  finalization, and the results-from-members invariant along any order in
  which connections, messages and the round-end timer are interleaved. The
  asyncio scheduling of the source becomes that order of transition calls,
  with each handler branch taken as one atomic step: a handler suspended
  inside one of its broadcasts is not split.
*/
module Lifecycle {
  import opened Options
  import opened Dicts
  import opened Ranking
  import opened Rooms

  /**
    While results are held only for members, there are never more results
    than members, and `len(results) == len(clients)` (server.py:114) holds
    exactly when every current member has submitted.
  */
  lemma AllSubmittedIffSameSize(room: Room)
    requires ResultsFromMembers(room)
    ensures |room.results| <= |room.clients|
    ensures |room.results| == |room.clients|
        <==> forall u | u in Keys(room.clients) :: u in Keys(room.results)
  {
    var submitted := set u | u in Keys(room.results);
    var members := set u | u in Keys(room.clients);
    DistinctCardinality(Keys(room.results));
    DistinctCardinality(Keys(room.clients));
    assert submitted <= members;
    assert |members| == |submitted| + |members - submitted| by {
      assert members == submitted + (members - submitted);
    }
    if |room.results| == |room.clients| {
      assert members - submitted == {};
      forall u | u in Keys(room.clients) ensures u in Keys(room.results) {
        assert u in members;
      }
    }
    if forall u | u in Keys(room.clients) :: u in Keys(room.results) {
      assert members == submitted;
    }
  }

  /**
    A member's submission during a round finalizes it on the spot exactly when
    every other current member has already submitted (server.py:110-115).
  */
  lemma SubmitFinalizesIffOthersSubmitted(room: Room, user: string, ch: Channel, count: int, offset: real, ts: seq<real>)
    requires ResultsFromMembers(room) && room.startTime.Some? && user in Keys(room.clients)
    ensures Submit(room, user, ch, count, offset, ts).room.startTime.None?
        <==> forall u | u in Keys(room.clients) && u != user :: u in Keys(room.results)
  {
    var recorded := Record(room, user, count, offset, ts);
    AllSubmittedIffSameSize(recorded);
    assert forall u | u != user :: u in Keys(recorded.results) <==> u in Keys(room.results) by {
      forall u | u != user ensures u in Keys(recorded.results) <==> u in Keys(room.results) {
        assert Lookup(recorded.results, u) == Lookup(room.results, u);
      }
    }
  }

  /** Every member ranked at zero, in member order. */
  function ZeroRanking(members: seq<string>): (r: seq<Standing>)
    ensures Users(r) == members
    ensures Sorted(r)
  {
    seq(|members|, i requires 0 <= i < |members| => Standing(members[i], 0, 0))
  }

  /**
    `finalize_round` has no guard on `start_time` (server.py:132-135), so a
    second call — the timer firing after an early finalization — is not a
    no-op: it broadcasts a second `round_end` ranking every current member at
    zero in member order, and overwrites `last_ranking` with it.
  */
  lemma FinalizeTwice(room: Room)
    ensures var first := Finalize(room);
      var second := Finalize(first.room);
      && second.room == first.room.(lastRanking := Some(ZeroRanking(Keys(room.clients))))
      && second.out == [ToAll(room, RoundEnd(ZeroRanking(Keys(room.clients))))]
  {
    RankWithoutResults(Keys(room.clients));
  }

  lemma {:induction false} NobodySubmitted(members: seq<string>)
    ensures Missing([], members) == members
  {
    if |members| > 0 {
      var n := |members| - 1;
      var init, last := members[..n], members[n];
      NobodySubmitted(init);
      assert members == init + [last];
      var nothing: Dict<string, Score> := [];
      assert last !in Keys(nothing);
      assert Missing(nothing, members) == Missing(nothing, init) + [last];
    }
  }

  /** With no results at all, every member is ranked at zero in member order. */
  lemma RankWithoutResults(members: seq<string>)
    requires Distinct(members)
    ensures Rank([], members) == ZeroRanking(members)
  {
    var nothing: Dict<string, Score> := [];
    ZeroRowsWithoutResults(members);
    assert Rank(nothing, members) == Sort(Standings(ZeroFill(nothing, members)));
    SortOfSorted(ZeroRanking(members));
  }

  /** Zero-filling an empty results dictionary lists every member with zeros, in member order. */
  lemma ZeroRowsWithoutResults(members: seq<string>)
    requires Distinct(members)
    ensures Standings(ZeroFill([], members)) == ZeroRanking(members)
  {
    var nothing: Dict<string, Score> := [];
    var filled := ZeroFill(nothing, members);
    FilledKeysWithoutResults(members);
    forall i | 0 <= i < |members|
      ensures filled[i] == (members[i], NoSubmission)
    {
      FilledEntryWithoutResults(members, i);
    }
    ZeroEntriesGiveZeroRows(filled, members);
  }

  lemma ZeroEntriesGiveZeroRows(f: seq<(string, Score)>, members: seq<string>)
    requires |f| == |members|
    requires forall i | 0 <= i < |members| :: f[i] == (members[i], NoSubmission)
    ensures Standings(f) == ZeroRanking(members)
  {
  }

  lemma FilledKeysWithoutResults(members: seq<string>)
    requires Distinct(members)
    ensures Keys(ZeroFill([], members)) == members
  {
    var nothing: Dict<string, Score> := [];
    NobodySubmitted(members);
    assert Keys(nothing) == [];
  }

  lemma FilledEntryWithoutResults(members: seq<string>, i: int)
    requires Distinct(members) && 0 <= i < |members|
    ensures |ZeroFill([], members)| == |members|
    ensures ZeroFill([], members)[i] == (members[i], NoSubmission)
  {
    var nothing: Dict<string, Score> := [];
    var filled := ZeroFill(nothing, members);
    FilledKeysWithoutResults(members);
    assert filled[i].0 == members[i] by {
      assert Keys(filled)[i] == members[i];
    }
    assert Lookup(filled, members[i]) == Some(NoSubmission);
  }

  // ---------------------------------------------------------------------------
  // Interleavings

  /** Everything that can happen to one room. */
  datatype Event =
    | Connected(user: string, ch: Channel)
    | Disconnected(user: string)
    | JoinMessage(ch: Channel)
    | StartMessage(now: real)
    | ResultMessage(user: string, ch: Channel, count: int, offset: real, timestamps: seq<real>)
    | TimerFired
    | OtherMessage   // any other `type`: ignored (server.py:117)

  /**
    The dispatch of a connection's handler and of the timer (server.py:54-122,
    129). The duration never changes; only connects and disconnects touch
    the members; `join` and unknown messages leave the room as it was; the
    last ranking changes only at a finalization, which leaves no round
    behind; and only a start arms a timer.
  */
  function Apply(room: Room, e: Event): (s: Step)
    ensures s.room.duration == room.duration
    ensures !e.Connected? && !e.Disconnected? ==> s.room.clients == room.clients
    ensures e.JoinMessage? || e.OtherMessage? ==> s.room == room
    ensures s.room.lastRanking != room.lastRanking ==> s.room.startTime.None? && s.room.results == []
    ensures forall i | 0 <= i < |s.out| && s.out[i].FinalizeAt? :: e.StartMessage?
    ensures e.StartMessage? ==> s.room.startTime == Some(e.now + LeadSeconds) && |s.out| > 0 && s.out[|s.out| - 1].FinalizeAt?
    ensures e.TimerFired? ==> s.room.startTime.None? && |s.out| == 1 && s.out[0].msg.RoundEnd?
    ensures e.ResultMessage? && room.startTime.None? ==> s.room == room
    ensures e.ResultMessage? && room.startTime.Some? ==> e.user in Keys(s.room.results) || s.room.startTime.None?
    ensures e.Connected? ==> Lookup(s.room.clients, e.user) == Some(e.ch)
    ensures e.Disconnected? ==> e.user !in Keys(s.room.clients) && e.user !in Keys(s.room.results)
    ensures e.JoinMessage? ==> s.out == [Reply(e.ch, RoomInfo(Keys(room.clients), room.startTime, room.duration))]
  {
    match e
    case Connected(user, ch) => Register(room, user, ch)
    case Disconnected(user) => Leave(room, user)
    case JoinMessage(ch) => JoinInfo(room, ch)
    case StartMessage(now) => RequestStart(room, now)
    case ResultMessage(user, ch, count, offset, ts) =>
      SubmitFrame(room, user, ch, count, offset, ts);
      Submit(room, user, ch, count, offset, ts)
    case TimerFired => Finalize(room)
    case OtherMessage => Step(room, [])
  }

  /** A submission keeps members and duration, ends any round it re-ranks, and arms no timer. */
  lemma SubmitFrame(room: Room, user: string, ch: Channel, count: int, offset: real, ts: seq<real>)
    ensures var s := Submit(room, user, ch, count, offset, ts);
      && s.room.duration == room.duration && s.room.clients == room.clients
      && (s.room.lastRanking != room.lastRanking ==> s.room.startTime.None? && s.room.results == [])
      && forall i | 0 <= i < |s.out| :: !s.out[i].FinalizeAt?
  {
    var s := Submit(room, user, ch, count, offset, ts);
    if room.startTime.Some? && |Record(room, user, count, offset, ts).results| == |room.clients| {
      assert s.out == [s.out[0]] + s.out[1..];
    }
  }

  /** A result is sent by a user who is registered at that moment. */
  predicate FromMember(room: Room, e: Event) {
    e.ResultMessage? ==> e.user in Keys(room.clients)
  }

  /** Runs the events in order, collecting every effect. */
  function Run(room: Room, events: seq<Event>): Step
    decreases |events|
  {
    if |events| == 0 then Step(room, [])
    else
      var first := Apply(room, events[0]);
      var rest := Run(first.room, events[1..]);
      Step(rest.room, first.out + rest.out)
  }

  /** Every result in the run comes from a member registered when it arrives. */
  predicate MembersSubmit(room: Room, events: seq<Event>)
    decreases |events|
  {
    |events| == 0
    || (FromMember(room, events[0]) && MembersSubmit(Apply(room, events[0]).room, events[1..]))
  }

  /** One event keeps results within the members. */
  lemma ApplyKeepsResultsFromMembers(room: Room, e: Event)
    requires ResultsFromMembers(room) && FromMember(room, e)
    ensures ResultsFromMembers(Apply(room, e).room)
  {
  }

  /**
    In any interleaving of joins, leaves, starts, member submissions and timer
    firings, results stay within the members, so there are never more
    results than members.
  */
  lemma {:induction false} RunKeepsResultsFromMembers(room: Room, events: seq<Event>)
    requires ResultsFromMembers(room) && MembersSubmit(room, events)
    ensures ResultsFromMembers(Run(room, events).room)
    ensures |Run(room, events).room.results| <= |Run(room, events).room.clients|
    decreases |events|
  {
    if |events| > 0 {
      ApplyKeepsResultsFromMembers(room, events[0]);
      RunKeepsResultsFromMembers(Apply(room, events[0]).room, events[1..]);
    } else {
      AllSubmittedIffSameSize(room);
    }
  }

  /** Running two batches of events one after the other is running them together. */
  lemma {:induction false} RunAppend(room: Room, a: seq<Event>, b: seq<Event>)
    ensures Run(room, a + b).room == Run(Run(room, a).room, b).room
    ensures Run(room, a + b).out == Run(room, a).out + Run(Run(room, a).room, b).out
    decreases |a|
  {
    if |a| == 0 {
      assert a + b == b;
    } else {
      var first := Apply(room, a[0]);
      assert (a + b)[0] == a[0];
      assert (a + b)[1..] == a[1..] + b;
      RunAppend(first.room, a[1..], b);
      var mid := Run(first.room, a[1..]);
      var tail := Run(mid.room, b).out;
      assert Run(room, a + b).out == first.out + (mid.out + tail);
      assert first.out + (mid.out + tail) == (first.out + mid.out) + tail;
    }
  }

  /** A run of one event is that event's step. */
  lemma RunOne(room: Room, e: Event)
    ensures Run(room, [e]) == Step(Apply(room, e).room, Apply(room, e).out)
  {
    assert [e][1..] == [];
  }

  /** A run of two events ends where the second step ends. */
  lemma RunTwo(room: Room, e0: Event, e1: Event)
    ensures Run(room, [e0, e1]).room == Apply(Apply(room, e0).room, e1).room
  {
    RunOne(Apply(room, e0).room, e1);
    assert [e0, e1][1..] == [e1];
  }

  /** A run of three events ends where the third step ends. */
  lemma RunThree(room: Room, e0: Event, e1: Event, e2: Event)
    ensures Run(room, [e0, e1, e2]).room == Apply(Apply(Apply(room, e0).room, e1).room, e2).room
  {
    RunTwo(Apply(room, e0).room, e1, e2);
    assert [e0, e1, e2][1..] == [e1, e2];
  }

  /**
    A reconnect under the same name followed by the old connection's
    disconnect (server.py:54, 120) leaves the name unregistered.
  */
  lemma ReconnectThenOldLeaves(room: Room, user: string, first: Channel, second: Channel)
    requires room.clients == []
    ensures Run(room, [Connected(user, first), Connected(user, second)]).room.clients == [(user, second)]
    ensures Run(room, [Connected(user, first), Connected(user, second), Disconnected(user)]).room.clients == []
  {
    var r1 := Register(room, user, first).room;
    var r2 := Register(r1, user, second).room;
    assert Keys(r1.clients) == [user];
    assert r2.clients == [(user, second)];
    assert Leave(r2, user).room.clients == [];
    RunTwo(room, Connected(user, first), Connected(user, second));
    RunThree(room, Connected(user, first), Connected(user, second), Disconnected(user));
  }

  /** A name that is not registered submits during a round, and its result is stored. */
  lemma StrangerSubmits(room: Room, user: string, ch: Channel, now: real, count: int, offset: real, ts: seq<real>)
    requires room.clients == []
    ensures var s := Run(room, [StartMessage(now), ResultMessage(user, ch, count, offset, ts)]);
      user in Keys(s.room.results) && !ResultsFromMembers(s.room)
  {
    var r1 := RequestStart(room, now).room;
    var r2 := Submit(r1, user, ch, count, offset, ts).room;
    assert r1.clients == [] && r1.startTime.Some? && r1.results == [];
    assert Lookup(r2.results, user).Some?;
    RunTwo(room, StartMessage(now), ResultMessage(user, ch, count, offset, ts));
  }

  /**
    The invariant does need the submitter to be registered: a reconnect under
    the same name followed by the old connection's disconnect unregisters the
    name (server.py:54, 120) while the new connection still submits under it
    (server.py:110), and the result is stored for a name with no member.
  */
  lemma OutsiderResultBreaksInvariant(room: Room, user: string, first: Channel, second: Channel,
                                      now: real, count: int, offset: real, ts: seq<real>)
    requires room.clients == []
    ensures var reconnect := [Connected(user, first), Connected(user, second), Disconnected(user)];
      var submit := [StartMessage(now), ResultMessage(user, second, count, offset, ts)];
      var s := Run(room, reconnect + submit);
      user in Keys(s.room.results) && !ResultsFromMembers(s.room)
  {
    var reconnect := [Connected(user, first), Connected(user, second), Disconnected(user)];
    var submit := [StartMessage(now), ResultMessage(user, second, count, offset, ts)];
    ReconnectThenOldLeaves(room, user, first, second);
    StrangerSubmits(Run(room, reconnect).room, user, second, now, count, offset, ts);
    RunAppend(room, reconnect, submit);
  }

  /**
    The timer is keyed by the room, not by the round (server.py:88, 125-129).
    Starting at 0 and restarting at 10 arms timers for 22 and 32, but the
    live round, which starts at 15, runs until 30: the earlier timer wakes
    inside it and ends it.
  */
  lemma StaleTimerEndsRestartedRound()
    ensures var s := Run(Room([], [], None, DefaultDuration, None), [StartMessage(0.0), StartMessage(10.0)]);
      && s.room.startTime == Some(15.0)
      && |s.out| == 4 && s.out[1] == FinalizeAt(22.0) && s.out[3] == FinalizeAt(32.0)
      && 22.0 < s.room.startTime.value + s.room.duration
      && Apply(s.room, TimerFired).room.startTime.None?
  {
    var events := [StartMessage(0.0), StartMessage(10.0)];
    var r0 := Room([], [], None, DefaultDuration, None);
    var first := Apply(r0, events[0]);
    var second := Apply(first.room, events[1]);
    assert events[1..][1..] == [];
    assert Run(first.room, events[1..]) == Step(second.room, second.out + []);
    assert Run(r0, events) == Step(second.room, first.out + (second.out + []));
  }

}

=== FILE: options.dfy ===
/** The optional value used for Python's `None`-or-value fields. */
module Options {

  datatype Option<+T> = None | Some(value: T)

}

=== FILE: ranking.dfy ===
/**
  The end-of-round ranking (server.py:143-146): `sorted(entries, key=lambda x:
  (-x["validated"], -x["reported"]))`. Python's `sorted` is stable, so entries
  with the same pair of scores keep the order in which they were listed.
*/
module Ranking {

  /** One row of a `round_end` ranking. */
  datatype Standing = Standing(user: string, validated: int, reported: int)

  /** `a` sorts strictly before `b`: more validated taps, or as many and more reported ones. */
  predicate Outranks(a: Standing, b: Standing) {
    a.validated > b.validated || (a.validated == b.validated && a.reported > b.reported)
  }

  /** No entry is outranked by an entry listed after it. */
  predicate Sorted(s: seq<Standing>) {
    forall i, j | 0 <= i < j < |s| :: !Outranks(s[j], s[i])
  }

  function Users(s: seq<Standing>): seq<string> {
    seq(|s|, i requires 0 <= i < |s| => s[i].user)
  }

  lemma UsersCons(h: Standing, t: seq<Standing>)
    ensures Users([h] + t) == [h.user] + Users(t)
  {
  }

  /** The entries of `s` scoring exactly (`v` validated, `p` reported), in their order in `s`. */
  function Tier(s: seq<Standing>, v: int, p: int): seq<Standing> {
    if |s| == 0 then []
    else (if s[0].validated == v && s[0].reported == p then [s[0]] else []) + Tier(s[1..], v, p)
  }

  /** Prefixing an entry that nothing in a sorted sequence outranks keeps it sorted. */
  lemma ConsSorted(h: Standing, t: seq<Standing>)
    requires Sorted(t)
    requires forall e | e in multiset(t) :: !Outranks(e, h)
    ensures Sorted([h] + t)
  {
    var r := [h] + t;
    forall i, j | 0 <= i < j < |r|
      ensures !Outranks(r[j], r[i])
    {
      assert r[j] == t[j - 1];
      if i > 0 {
        assert r[i] == t[i - 1];
      } else {
        assert t[j - 1] in multiset(t);
      }
    }
  }

  /** In a sorted sequence nothing after the head outranks it, and the tail is sorted. */
  lemma HeadBounds(s: seq<Standing>)
    requires Sorted(s) && |s| > 0
    ensures Sorted(s[1..])
    ensures forall e | e in multiset(s[1..]) :: !Outranks(e, s[0])
  {
    forall e | e in multiset(s[1..])
      ensures !Outranks(e, s[0])
    {
      var j :| 0 <= j < |s[1..]| && s[1..][j] == e;
      assert s[j + 1] == e;
    }
  }

  /** Inserts `x` in front of the first entry that does not outrank it. */
  function Insert(x: Standing, s: seq<Standing>): (r: seq<Standing>)
    requires Sorted(s)
    ensures Sorted(r)
    ensures multiset(r) == multiset(s) + multiset{x}
  {
    if |s| == 0 then [x]
    else
      HeadBounds(s);
      assert s == [s[0]] + s[1..];
      if Outranks(s[0], x) then
        var rt := Insert(x, s[1..]);
        ConsSorted(s[0], rt);
        [s[0]] + rt
      else
        ConsSorted(x, s);
        [x] + s
  }

  /** Inserting `x` adds its user once to the users of `s`. */
  lemma {:induction false} InsertUsers(x: Standing, s: seq<Standing>)
    requires Sorted(s)
    ensures multiset(Users(Insert(x, s))) == multiset(Users(s)) + multiset{x.user}
  {
    if |s| > 0 {
      assert s == [s[0]] + s[1..];
      UsersCons(s[0], s[1..]);
      if Outranks(s[0], x) {
        InsertUsers(x, s[1..]);
        UsersCons(s[0], Insert(x, s[1..]));
      } else {
        UsersCons(x, s);
      }
    } else {
      UsersCons(x, []);
    }
  }

  /** Stable insertion sort, ranking the best entries first. */
  function Sort(s: seq<Standing>): (r: seq<Standing>)
    ensures Sorted(r)
    ensures multiset(r) == multiset(s)
  {
    if |s| == 0 then []
    else
      assert s == [s[0]] + s[1..];
      Insert(s[0], Sort(s[1..]))
  }

  /** Sorting neither adds nor drops a user. */
  lemma {:induction false} SortUsers(s: seq<Standing>)
    ensures multiset(Users(Sort(s))) == multiset(Users(s))
  {
    if |s| > 0 {
      var h, t := s[0], s[1..];
      assert s == [h] + t;
      var st := Sort(t);
      assert Sort(s) == Insert(h, st);
      SortUsers(t);
      InsertUsers(h, st);
      UsersCons(h, t);
    }
  }

  lemma TierCons(x: Standing, s: seq<Standing>, v: int, p: int)
    ensures Tier([x] + s, v, p) == (if x.validated == v && x.reported == p then [x] else []) + Tier(s, v, p)
  {
    assert ([x] + s)[1..] == s;
  }

  /** Inserting `x` adds it at the front of its own tier and leaves every other tier alone. */
  lemma {:induction false} InsertTier(x: Standing, s: seq<Standing>, v: int, p: int)
    requires Sorted(s)
    ensures Tier(Insert(x, s), v, p)
         == if x.validated == v && x.reported == p then [x] + Tier(s, v, p) else Tier(s, v, p)
  {
    if |s| == 0 {
      assert Insert(x, s) == [x];
      TierCons(x, [], v, p);
    } else if Outranks(s[0], x) {
      HeadBounds(s);
      InsertTier(x, s[1..], v, p);
      InsertTierPastHead(x, s, v, p);
    } else {
      assert Insert(x, s) == [x] + s;
      TierCons(x, s, v, p);
    }
  }

  /** The step of `InsertTier` where `x` goes past the head of `s`. */
  lemma InsertTierPastHead(x: Standing, s: seq<Standing>, v: int, p: int)
    requires Sorted(s) && |s| > 0 && Outranks(s[0], x)
    requires Sorted(s[1..])
    requires Tier(Insert(x, s[1..]), v, p)
          == if x.validated == v && x.reported == p then [x] + Tier(s[1..], v, p) else Tier(s[1..], v, p)
    ensures Tier(Insert(x, s), v, p)
         == if x.validated == v && x.reported == p then [x] + Tier(s, v, p) else Tier(s, v, p)
  {
    var h, t := s[0], s[1..];
    var rt := Insert(x, t);
    assert s == [h] + t;
    assert Insert(x, s) == [h] + rt;
    TierCons(h, t, v, p);
    TierCons(h, rt, v, p);
    if x.validated == v && x.reported == p {
      assert !(h.validated == v && h.reported == p);
      assert [] + Tier(rt, v, p) == Tier(rt, v, p);
      assert [] + Tier(t, v, p) == Tier(t, v, p);
    }
  }

  /** Stability: sorting keeps the relative order of the entries of every tier. */
  lemma {:induction false} SortKeepsTiers(s: seq<Standing>, v: int, p: int)
    ensures Tier(Sort(s), v, p) == Tier(s, v, p)
  {
    if |s| > 0 {
      SortKeepsTiers(s[1..], v, p);
      InsertTier(s[0], Sort(s[1..]), v, p);
      TierCons(s[0], s[1..], v, p);
      assert s == [s[0]] + s[1..];
    }
  }

  /** What a tier holds: entries of `s` with exactly that pair of scores. */
  lemma {:induction false} TierMembers(s: seq<Standing>, v: int, p: int, z: Standing)
    ensures z in Tier(s, v, p) <==> z in s && z.validated == v && z.reported == p
  {
    if |s| > 0 {
      TierMembers(s[1..], v, p, z);
      assert s == [s[0]] + s[1..];
    }
  }

  lemma TierOfHeadIsNotEmpty(s: seq<Standing>)
    requires |s| > 0
    ensures Tier(s, s[0].validated, s[0].reported) != []
  {
  }

  /**
    A stable sort is unique: two sorted sequences with the same tiers are equal.
    So `Sort` is the one ordering Python's stable `sorted` produces.
  */
  lemma {:induction false} StableSortUnique(a: seq<Standing>, b: seq<Standing>)
    requires Sorted(a) && Sorted(b)
    requires forall v: int, p: int :: Tier(a, v, p) == Tier(b, v, p)
    ensures a == b
    decreases |a| + |b|
  {
    if |a| == 0 && |b| == 0 {
    } else if |a| == 0 {
      TierOfHeadIsNotEmpty(b);
      assert false;
    } else if |b| == 0 {
      TierOfHeadIsNotEmpty(a);
      assert false;
    } else {
      HeadsAgree(a, b);
      TailTiersAgree(a, b);
      HeadBounds(a);
      HeadBounds(b);
      StableSortUnique(a[1..], b[1..]);
      assert a == [a[0]] + a[1..] && b == [b[0]] + b[1..];
    }
  }

  /** Sorted sequences with the same tiers start with the same entry. */
  lemma HeadsAgree(a: seq<Standing>, b: seq<Standing>)
    requires Sorted(a) && Sorted(b) && |a| > 0 && |b| > 0
    requires forall v: int, p: int :: Tier(a, v, p) == Tier(b, v, p)
    ensures a[0] == b[0]
  {
    var x, y := a[0], b[0];
    assert Tier(a, x.validated, x.reported)[0] == x;
    assert Tier(b, y.validated, y.reported)[0] == y;
    assert !Outranks(x, y) by {
      TierMembers(b, x.validated, x.reported, x);
      TierMembers(a, x.validated, x.reported, x);
      var j :| 0 <= j < |b| && b[j] == x;
      if j > 0 {
        assert !Outranks(b[j], b[0]);
      }
    }
    assert !Outranks(y, x) by {
      TierMembers(a, y.validated, y.reported, y);
      TierMembers(b, y.validated, y.reported, y);
      var j :| 0 <= j < |a| && a[j] == y;
      if j > 0 {
        assert !Outranks(a[j], a[0]);
      }
    }
  }

  /** Dropping the same head from two sequences with the same tiers leaves the same tiers. */
  lemma TailTiersAgree(a: seq<Standing>, b: seq<Standing>)
    requires |a| > 0 && |b| > 0 && a[0] == b[0]
    requires forall v: int, p: int :: Tier(a, v, p) == Tier(b, v, p)
    ensures forall v: int, p: int :: Tier(a[1..], v, p) == Tier(b[1..], v, p)
  {
    var x := a[0];
    forall v: int, p: int
      ensures Tier(a[1..], v, p) == Tier(b[1..], v, p)
    {
      assert a == [x] + a[1..] && b == [x] + b[1..];
      assert Tier(a, v, p) == Tier(b, v, p);
      TierCons(x, a[1..], v, p);
      TierCons(x, b[1..], v, p);
      var front := if x.validated == v && x.reported == p then [x] else [];
      assert Tier(a[1..], v, p) == (front + Tier(a[1..], v, p))[|front|..];
      assert Tier(b[1..], v, p) == (front + Tier(b[1..], v, p))[|front|..];
    }
  }

  /** Sorting an already sorted sequence changes nothing. */
  lemma SortOfSorted(s: seq<Standing>)
    requires Sorted(s)
    ensures Sort(s) == s
  {
    forall v: int, p: int
      ensures Tier(Sort(s), v, p) == Tier(s, v, p)
    {
      SortKeepsTiers(s, v, p);
    }
    StableSortUnique(Sort(s), s);
  }

}

=== FILE: registry.dfy ===
/**
  The process-wide room table `rooms` (server.py:19) and the operations that
  reach a room through it: lazy creation on connection, the deferred
  finalization, and the clamped sleep before it.
*/
module Registry {
  import opened Options
  import opened Dicts
  import opened Rooms
  import opened Lifecycle

  type RoomTable = map<string, Room>

  /** The room `rooms.setdefault` inserts for an unknown id (server.py:52). */
  function NewRoom(): (r: Room)
    ensures Keys(r.clients) == [] && Keys(r.results) == []
    ensures r.startTime.None? && r.duration == DefaultDuration && r.lastRanking.None?
    ensures ResultsFromMembers(r)
  {
    Room([], [], None, DefaultDuration, None)
  }

  /**
    `rooms.setdefault(room_id, ...)`: the room already filed under `id`,
    untouched, or a fresh empty one filed under it. No other room changes.
  */
  function GetOrCreate(table: RoomTable, id: string): (r: (RoomTable, Room))
    ensures id in r.0 && r.0[id] == r.1
    ensures r.0.Keys == table.Keys + {id}
    ensures forall k | k in table :: r.0[k] == table[k]
    ensures id !in table ==>
      && r.1.clients == [] && r.1.results == [] && r.1.startTime == None
      && r.1.duration == 15.0 && r.1.lastRanking == None
  {
    if id in table then (table, table[id])
    else (table[id := NewRoom()], NewRoom())
  }

  /**
    A websocket connection for (`id`, `user`) on channel `ch` (server.py:50-57):
    the room is found or created, the channel is registered under the user,
    and the room hears the new presence list. No other room changes.
  */
  function Connect(table: RoomTable, id: string, user: string, ch: Channel): (r: (RoomTable, seq<Effect>))
    ensures id in r.0 && r.0.Keys == table.Keys + {id}
    ensures forall k | k in table && k != id :: r.0[k] == table[k]
    ensures Lookup(r.0[id].clients, user) == Some(ch)
    ensures id !in table ==> r.0[id].clients == [(user, ch)] && r.0[id].startTime == None
    ensures r.1 == [Broadcast(Values(r.0[id].clients), Presence(Keys(r.0[id].clients)))]
    ensures var before := if id in table then table[id] else NewRoom();
      r.0[id] == Register(before, user, ch).room && r.1 == Register(before, user, ch).out
  {
    var (t, room) := GetOrCreate(table, id);
    var s := Register(room, user, ch);
    (t[id := s.room], s.out)
  }

  /**
    Any event of a connection's handler (server.py:59-122) or of the timer:
    it acts on the room the connection holds, which stays filed under `id`
    because rooms are never removed. No other room changes.
  */
  function Handle(table: RoomTable, id: string, e: Event): (r: (RoomTable, seq<Effect>))
    requires id in table
    ensures r.0.Keys == table.Keys
    ensures forall k | k in table && k != id :: r.0[k] == table[k]
    ensures r.0[id] == Apply(table[id], e).room && r.1 == Apply(table[id], e).out
  {
    var s := Apply(table[id], e);
    (table[id := s.room], s.out)
  }

  /**
    `finalize_round(room_id)` reached through the table (server.py:132-135):
    nothing happens for an unknown id; otherwise that room alone is
    finalized, whether or not a round is running.
  */
  function FinalizeRoom(table: RoomTable, id: string): (r: (RoomTable, seq<Effect>))
    ensures id !in table ==> r == (table, [])
    ensures r.0.Keys == table.Keys
    ensures forall k | k in table && k != id :: r.0[k] == table[k]
    ensures id in table ==>
      && r.0[id].startTime.None? && r.0[id].results == []
      && r.0[id].clients == table[id].clients
      && |r.1| == 1 && r.1[0].Broadcast? && r.1[0].msg.RoundEnd?
    ensures id in table ==> r.0[id] == Finalize(table[id]).room && r.1 == Finalize(table[id]).out
  {
    if id in table then
      var s := Finalize(table[id]);
      (table[id := s.room], s.out)
    else (table, [])
  }

  /** `max(0, when - now)`: how long the timer sleeps; never negative (server.py:127). */
  function Delay(when: real, now: real): (d: real)
    ensures d >= 0.0
    ensures now + d >= when
    ensures when >= now ==> now + d == when
    ensures when <= now ==> d == 0.0
  {
    if when - now > 0.0 then when - now else 0.0
  }

  /**
    A timer armed by `request_start` at `now` sleeps for the lead time, the
    whole round and the buffer, so it cannot wake before the window closes.
  */
  lemma TimerOutlastsWindow(room: Room, now: real)
    requires room.duration >= 0.0
    ensures var s := RequestStart(room, now);
      var wake := now + Delay(s.out[1].when, now);
      && Delay(s.out[1].when, now) == LeadSeconds + room.duration + FinalizeBuffer
      && wake > s.room.startTime.value + room.duration
  {
  }

}

=== FILE: rooms.dfy ===
/**
  One room of the tapping game and its round lifecycle (server.py:52-151).

  Every transition is a pure function from a room to a `Step`: the room
  afterwards plus the effects it emitted, in order. A broadcast is recorded
  as one `Broadcast` effect naming the channels it is addressed to (the
  snapshot `room["clients"].values()` of server.py:31); a reply to the
  sending connection is a `Reply`; the deferred finalization that
  `request_start` schedules is a `FinalizeAt` effect. Times are exact reals:
  float rounding is not modelled.
*/
module Rooms {
  import opened Options
  import opened Dicts
  import opened Validation
  import opened Ranking

  /** Opaque handle of one websocket connection. */
  type Channel = nat

  /** A stored submission: `{"reported", "validated", "offset"}` (server.py:110). */
  datatype Score = Score(reported: int, validated: nat, offset: real)

  /** The entry synthesised for a member who never submitted (server.py:141). */
  const NoSubmission: Score := Score(0, 0, 0.0)

  /** Seconds between a start request and the start of the round (server.py:81). */
  const LeadSeconds: real := 5.0

  /** Seconds the automatic finalization waits after the window closes (server.py:88). */
  const FinalizeBuffer: real := 2.0

  /** Round length given to every new room (server.py:52). */
  const DefaultDuration: real := 15.0

  datatype Room = Room(
    clients: Dict<string, Channel>,
    results: Dict<string, Score>,
    startTime: Option<real>,
    duration: real,
    lastRanking: Option<seq<Standing>>)

  /** Outgoing message payloads (the JSON objects the server sends). */
  datatype Msg =
    | Presence(users: seq<string>)
    | RoomInfo(users: seq<string>, activeStart: Option<real>, duration: real)
    | Start(startTime: real, duration: real)
    | PartialResult(user: string, validated: nat)
    | RoundEnd(ranking: seq<Standing>)
    | Error(reason: string)

  datatype Effect =
    | Broadcast(audience: seq<Channel>, msg: Msg)
    | Reply(to: Channel, msg: Msg)
    | FinalizeAt(when: real)

  datatype Step = Step(room: Room, out: seq<Effect>)

  /** `broadcast(room_id, msg)`: one message to every channel registered at this moment. */
  function ToAll(room: Room, msg: Msg): (e: Effect)
    ensures e.Broadcast? && e.msg == msg
    ensures |e.audience| == |room.clients|
    ensures forall u | u in Keys(room.clients) :: Lookup(room.clients, u).value in e.audience
    ensures forall c | c in e.audience :: exists u :: Lookup(room.clients, u) == Some(c)
  {
    ValuesAreLookups(room.clients);
    Broadcast(Values(room.clients), msg)
  }

  /** Results are held only for current members. */
  predicate ResultsFromMembers(room: Room) {
    forall u | u in Keys(room.results) :: u in Keys(room.clients)
  }

  // ---------------------------------------------------------------------------
  // Membership

  /** Connection set-up: `clients[username] = websocket`, then a presence broadcast (server.py:54-57). */
  function Register(room: Room, user: string, ch: Channel): (s: Step)
    ensures Lookup(s.room.clients, user) == Some(ch)
    ensures forall u | u != user :: Lookup(s.room.clients, u) == Lookup(room.clients, u)
    ensures user in Keys(room.clients) ==> Keys(s.room.clients) == Keys(room.clients)
    ensures user !in Keys(room.clients) ==> Keys(s.room.clients) == Keys(room.clients) + [user]
    ensures s.room.results == room.results && s.room.startTime == room.startTime
    ensures s.room.duration == room.duration && s.room.lastRanking == room.lastRanking
    ensures s.out == [ToAll(s.room, Presence(Keys(s.room.clients)))]
    ensures ResultsFromMembers(room) ==> ResultsFromMembers(s.room)
  {
    var clients := Put(room.clients, user, ch);
    var r := room.(clients := clients);
    Step(r, [ToAll(r, Presence(Keys(clients)))])
  }

  /** Disconnect: the user leaves `clients` and `results`; the rest hear the new presence (server.py:118-122). */
  function Leave(room: Room, user: string): (s: Step)
    ensures user !in Keys(s.room.clients) && user !in Keys(s.room.results)
    ensures forall u | u != user :: Lookup(s.room.clients, u) == Lookup(room.clients, u)
    ensures forall u | u != user :: Lookup(s.room.results, u) == Lookup(room.results, u)
    ensures forall i | 0 <= i < |room.clients| && room.clients[i].0 == user
              :: s.room.clients == room.clients[..i] + room.clients[i + 1..]
    ensures forall i | 0 <= i < |room.results| && room.results[i].0 == user
              :: s.room.results == room.results[..i] + room.results[i + 1..]
    ensures user !in Keys(room.clients) ==> s.room.clients == room.clients
    ensures user !in Keys(room.results) ==> s.room.results == room.results
    ensures s.room.startTime == room.startTime && s.room.duration == room.duration
    ensures s.room.lastRanking == room.lastRanking
    ensures s.out == [ToAll(s.room, Presence(Keys(s.room.clients)))]
    ensures ResultsFromMembers(room) ==> ResultsFromMembers(s.room)
  {
    var r := room.(clients := Remove(room.clients, user), results := Remove(room.results, user));
    RemoveCutsAnyEntry(room.clients, user);
    RemoveCutsAnyEntry(room.results, user);
    RemoveKeepsWithin(room.results, room.clients, user);
    Step(r, [ToAll(r, Presence(Keys(r.clients)))])
  }

  /** Removing the same user from results and members keeps results within members. */
  lemma RemoveKeepsWithin(results: Dict<string, Score>, clients: Dict<string, Channel>, user: string)
    ensures (forall u | u in Keys(results) :: u in Keys(clients))
        ==> forall u | u in Keys(Remove(results, user)) :: u in Keys(Remove(clients, user))
  {
    if forall u | u in Keys(results) :: u in Keys(clients) {
      forall u | u in Keys(Remove(results, user)) ensures u in Keys(Remove(clients, user)) {
        assert Lookup(Remove(results, user), u) == Lookup(results, u);
        assert Lookup(Remove(clients, user), u) == Lookup(clients, u);
      }
    }
  }

  /** The `join` message: a reply to the asking connection only, the room untouched (server.py:69-76). */
  function JoinInfo(room: Room, ch: Channel): (s: Step)
    ensures s.room == room
    ensures |s.out| == 1 && s.out[0].Reply? && s.out[0].to == ch
    ensures s.out[0].msg == RoomInfo(Keys(room.clients), room.startTime, room.duration)
  {
    Step(room, [Reply(ch, RoomInfo(Keys(room.clients), room.startTime, room.duration))])
  }

  // ---------------------------------------------------------------------------
  // Round start

  /**
    The `request_start` message (server.py:78-88): the round begins `LeadSeconds`
    from `now`, earlier results are dropped, everyone hears the start, and a
    finalization is scheduled `FinalizeBuffer` seconds after the window closes.
    A round already running is overwritten.
  */
  function RequestStart(room: Room, now: real): (s: Step)
    ensures s.room.startTime.Some? && s.room.startTime.value == now + LeadSeconds
    ensures s.room.startTime.value > now
    ensures s.room.results == []
    ensures s.room.clients == room.clients && s.room.duration == room.duration
    ensures s.room.lastRanking == room.lastRanking
    ensures |s.out| == 2
    ensures s.out[0] == ToAll(room, Start(s.room.startTime.value, room.duration))
    ensures s.out[1].FinalizeAt?
    ensures s.out[1].when == s.room.startTime.value + room.duration + FinalizeBuffer
    ensures s.out[1].when > s.room.startTime.value + room.duration
    ensures ResultsFromMembers(s.room)
  {
    var start := now + LeadSeconds;
    var r := room.(startTime := Some(start), results := []);
    Step(r, [ToAll(r, Start(start, room.duration)), FinalizeAt(start + room.duration + FinalizeBuffer)])
  }

  // ---------------------------------------------------------------------------
  // Result submission

  /**
    Lines 101-110 of server.py: score the timestamps against the window
    `[start, start + duration]` and store the submission under `user`,
    replacing an earlier one from the same user.
  */
  function Record(room: Room, user: string, count: int, offset: real, ts: seq<real>): (r: Room)
    requires room.startTime.Some?
    ensures Lookup(r.results, user).Some?
    ensures var sc := Lookup(r.results, user).value;
      && sc.reported == count && sc.offset == offset
      && sc.validated == |AcceptedPositions(ts, offset, room.startTime.value, room.startTime.value + room.duration)|
    ensures forall u | u != user :: Lookup(r.results, u) == Lookup(room.results, u)
    ensures user in Keys(room.results) ==> Keys(r.results) == Keys(room.results)
    ensures user !in Keys(room.results) ==> Keys(r.results) == Keys(room.results) + [user]
    ensures r.clients == room.clients && r.startTime == room.startTime
    ensures r.duration == room.duration && r.lastRanking == room.lastRanking
    ensures ResultsFromMembers(room) && user in Keys(room.clients) ==> ResultsFromMembers(r)
  {
    var start := room.startTime.value;
    var valid := ValidCount(ts, offset, start, start + room.duration);
    ValidCountIsAcceptedPositions(ts, offset, start, start + room.duration);
    room.(results := Put(room.results, user, Score(count, valid, offset)))
  }

  /**
    The `result` message (server.py:90-115). Without an active round only the
    sender hears `no active round` and nothing changes. Otherwise the
    submission is recorded, everyone hears the sender's validated count, and
    the round is finalized at once when there are as many results as clients.
  */
  function Submit(room: Room, user: string, ch: Channel, count: int, offset: real, ts: seq<real>): (s: Step)
    ensures room.startTime.None? ==> s == Step(room, [Reply(ch, Error("no active round"))])
    ensures room.startTime.Some? ==>
      && |s.out| >= 1
      && s.out[0] == ToAll(room, PartialResult(user, Lookup(Record(room, user, count, offset, ts).results, user).value.validated))
    ensures room.startTime.Some? && |Record(room, user, count, offset, ts).results| != |room.clients| ==>
      && s.room == Record(room, user, count, offset, ts)
      && |s.out| == 1
    ensures room.startTime.Some? && |Record(room, user, count, offset, ts).results| == |room.clients| ==>
      && s.room == Finalize(Record(room, user, count, offset, ts)).room
      && s.out[1..] == Finalize(Record(room, user, count, offset, ts)).out
    ensures ResultsFromMembers(room) && user in Keys(room.clients) ==> ResultsFromMembers(s.room)
  {
    if room.startTime.None? then
      Step(room, [Reply(ch, Error("no active round"))])
    else
      var recorded := Record(room, user, count, offset, ts);
      var notice := ToAll(recorded, PartialResult(user, Lookup(recorded.results, user).value.validated));
      if |recorded.results| == |recorded.clients| then
        var fin := Finalize(recorded);
        assert ([notice] + fin.out)[1..] == fin.out;
        Step(fin.room, [notice] + fin.out)
      else
        Step(recorded, [notice])
  }

  // ---------------------------------------------------------------------------
  // Finalization

  /** Dropping the last element of a sequence without repetitions. */
  lemma DistinctInit(s: seq<string>)
    requires |s| > 0
    ensures Distinct(s) ==> Distinct(s[..|s| - 1]) && s[|s| - 1] !in s[..|s| - 1]
  {
    var n := |s| - 1;
    if Distinct(s) {
      forall i | 0 <= i < n ensures s[..n][i] != s[n] {
        assert s[i] != s[n];
      }
    }
  }

  /** The members with no result, in member order. */
  function Missing(results: Dict<string, Score>, members: seq<string>): (m: seq<string>)
    ensures forall u :: u in m <==> u in members && u !in Keys(results)
    ensures Distinct(members) ==> Distinct(m)
  {
    if |members| == 0 then []
    else
      var n := |members| - 1;
      assert members == members[..n] + [members[n]];
      DistinctInit(members);
      Missing(results, members[..n]) + NoResult(results, members[n])
  }

  /** `[u]` when `u` has no result, otherwise nothing. */
  function NoResult(results: Dict<string, Score>, u: string): seq<string> {
    if u in Keys(results) then [] else [u]
  }

  /** Which members lack a result is decided member by member, so `Missing` keeps member order. */
  lemma {:induction false} MissingAppend(results: Dict<string, Score>, a: seq<string>, b: seq<string>)
    ensures Missing(results, a + b) == Missing(results, a) + Missing(results, b)
    decreases |b|
  {
    if |b| == 0 {
      assert a + b == a;
    } else {
      var n := |b| - 1;
      InitOfAppend(a, b);
      var last := NoResult(results, b[n]);
      var front, middle := Missing(results, a), Missing(results, b[..n]);
      MissingAppend(results, a, b[..n]);
      assert Missing(results, a + b) == (front + middle) + last;
      assert Missing(results, b) == middle + last;
      assert (front + middle) + last == front + (middle + last);
    }
  }

  /**
    The zero-fill loop of server.py:139-141: every member without a result gets
    `NoSubmission`, appended after the existing results in member order.
  */
  function ZeroFill(results: Dict<string, Score>, members: seq<string>): (f: Dict<string, Score>)
    ensures forall u | u in Keys(results) :: Lookup(f, u) == Lookup(results, u)
    ensures forall u | u in members && u !in Keys(results) :: Lookup(f, u) == Some(NoSubmission)
    ensures forall u :: u in Keys(f) <==> u in Keys(results) || u in members
    ensures Distinct(members) ==> Keys(f) == Keys(results) + Missing(results, members)
  {
    if |members| == 0 then results
    else
      var n := |members| - 1;
      var user := members[n];
      assert members == members[..n] + [user];
      DistinctInit(members);
      var before := ZeroFill(results, members[..n]);
      if user in Keys(before) then before
      else Put(before, user, NoSubmission)
  }

  /** One ranking row per entry of a results dictionary, in the same order (server.py:144). */
  function Standings(d: seq<(string, Score)>): (s: seq<Standing>)
    ensures Users(s) == Keys(d)
    ensures forall i | 0 <= i < |d| :: s[i].validated == d[i].1.validated && s[i].reported == d[i].1.reported
  {
    seq(|d|, i requires 0 <= i < |d| => Standing(d[i].0, d[i].1.validated, d[i].1.reported))
  }

  /** The row a user gets in the ranking: their stored scores, or zeros when they never submitted. */
  function StandingFor(results: Dict<string, Score>, u: string): Standing {
    match Lookup(results, u)
    case Some(sc) => Standing(u, sc.validated, sc.reported)
    case None => Standing(u, 0, 0)
  }

  /**
    The ranking of server.py:137-146: one row for each user who submitted or
    is a member, carrying their scores (zeros for non-submitters), ordered by
    validated then reported taps, best first, with equal rows kept in
    dictionary order (submitters in submission order, then non-submitters in
    member order).
  */
  function Rank(results: Dict<string, Score>, members: seq<string>): (r: seq<Standing>)
    requires Distinct(members)
    ensures Sorted(r)
    ensures Distinct(Users(r))
    ensures forall u :: u in Users(r) <==> u in Keys(results) || u in members
    ensures forall u | u in Users(r) :: StandingFor(results, u) in r
    ensures forall v: int, p: int :: Tier(r, v, p) == Tier(Standings(ZeroFill(results, members)), v, p)
  {
    var filled := ZeroFill(results, members);
    var rows := Standings(filled);
    var r := Sort(rows);
    SortUsers(rows);
    DistinctPermutation(Users(rows), Users(r));
    RowsCarryScores(results, members);
    assert forall u :: u in Users(r) <==> u in multiset(Users(r));
    assert forall u :: u in Keys(filled) <==> u in multiset(Keys(filled));
    assert forall e :: e in r <==> e in multiset(r);
    assert forall e :: e in rows <==> e in multiset(rows);
    forall v: int, p: int
      ensures Tier(r, v, p) == Tier(rows, v, p)
    {
      SortKeepsTiers(rows, v, p);
    }
    r
  }

  /** Each user of the zero-filled results has the row `StandingFor` describes. */
  lemma RowsCarryScores(results: Dict<string, Score>, members: seq<string>)
    ensures var filled := ZeroFill(results, members);
      forall u | u in Keys(filled) :: StandingFor(results, u) in Standings(filled)
  {
    var filled := ZeroFill(results, members);
    var rows := Standings(filled);
    forall u | u in Keys(filled)
      ensures StandingFor(results, u) in rows
    {
      var i :| 0 <= i < |filled| && Keys(filled)[i] == u;
      assert Lookup(filled, u) == Some(filled[i].1);
      assert rows[i] == StandingFor(results, u);
    }
  }

  /**
    `finalize_round` (server.py:132-151), as written: there is no check that a
    round is running. It ranks the results and members, keeps the ranking,
    broadcasts one `round_end`, and clears the start time and the results.
  */
  function Finalize(room: Room): (s: Step)
    ensures s.room.startTime.None? && s.room.results == []
    ensures s.room.clients == room.clients && s.room.duration == room.duration
    ensures s.room.lastRanking == Some(Rank(room.results, Keys(room.clients)))
    ensures s.out == [ToAll(room, RoundEnd(s.room.lastRanking.value))]
    ensures ResultsFromMembers(s.room)
  {
    var ranking := Rank(room.results, Keys(room.clients));
    Step(room.(lastRanking := Some(ranking), startTime := None, results := []),
         [ToAll(room, RoundEnd(ranking))])
  }

}

=== FILE: validation.dfy ===
/**
  Server-side validation of the tap timestamps a client reports
  (server.py:101-108). A timestamp `t` is taken in the client's local clock;
  `t + offset` is its server-clock instant, and it counts when that instant
  lies in the closed round window `[start, end]`.

  Times are exact reals: IEEE float rounding of `t + offset` is not modelled.
*/
module Validation {

  /** Both bounds of the round window are inclusive. */
  predicate InWindow(t: real, start: real, end: real) {
    start <= t && t <= end
  }

  /** Number of timestamps whose server-clock instant falls in the window. */
  function ValidCount(ts: seq<real>, offset: real, start: real, end: real): (n: nat)
    ensures n <= |ts|
  {
    if |ts| == 0 then 0
    else
      ValidCount(ts[..|ts| - 1], offset, start, end)
      + (if InWindow(ts[|ts| - 1] + offset, start, end) then 1 else 0)
  }

  /** Reference definition: the positions of the accepted timestamps. */
  ghost function AcceptedPositions(ts: seq<real>, offset: real, start: real, end: real): set<int> {
    set i | 0 <= i < |ts| && InWindow(ts[i] + offset, start, end)
  }

  /** The count is exactly the number of accepted positions. */
  lemma {:induction false} ValidCountIsAcceptedPositions(ts: seq<real>, offset: real, start: real, end: real)
    ensures ValidCount(ts, offset, start, end) == |AcceptedPositions(ts, offset, start, end)|
  {
    if |ts| > 0 {
      var n := |ts| - 1;
      var init := ts[..n];
      ValidCountIsAcceptedPositions(init, offset, start, end);
      var before := AcceptedPositions(init, offset, start, end);
      var all := AcceptedPositions(ts, offset, start, end);
      assert forall i | 0 <= i < n :: init[i] == ts[i];
      assert n !in before;
      if InWindow(ts[n] + offset, start, end) {
        assert all == before + {n};
      } else {
        assert all == before;
      }
    }
  }

  /** Every timestamp is accepted exactly when the count reaches the number of timestamps. */
  lemma {:induction false} AllAcceptedIffFullCount(ts: seq<real>, offset: real, start: real, end: real)
    ensures ValidCount(ts, offset, start, end) == |ts|
        <==> forall i | 0 <= i < |ts| :: InWindow(ts[i] + offset, start, end)
  {
    if |ts| > 0 {
      var n := |ts| - 1;
      var init := ts[..n];
      AllAcceptedIffFullCount(init, offset, start, end);
      assert forall i | 0 <= i < n :: init[i] == ts[i];
    }
  }

  /** No timestamp is accepted exactly when the count is zero. */
  lemma {:induction false} NoneAcceptedIffZeroCount(ts: seq<real>, offset: real, start: real, end: real)
    ensures ValidCount(ts, offset, start, end) == 0
        <==> forall i | 0 <= i < |ts| :: !InWindow(ts[i] + offset, start, end)
  {
    if |ts| > 0 {
      var n := |ts| - 1;
      var init := ts[..n];
      NoneAcceptedIffZeroCount(init, offset, start, end);
      assert forall i | 0 <= i < n :: init[i] == ts[i];
    }
  }

  /**
    The validation loop of server.py:102-108, front to back: the counter ends
    at the number of accepted positions and never exceeds the input length.
  */
  method CountValid(ts: seq<real>, offset: real, start: real, end: real) returns (valid: nat)
    ensures valid == |AcceptedPositions(ts, offset, start, end)|
    ensures valid == ValidCount(ts, offset, start, end)
    ensures valid <= |ts|
  {
    valid := 0;
    var i := 0;
    while i < |ts|
      invariant 0 <= i <= |ts|
      invariant valid == ValidCount(ts[..i], offset, start, end)
    {
      var tServer := ts[i] + offset;
      assert ts[..i + 1][..i] == ts[..i];
      if tServer >= start && tServer <= end {
        valid := valid + 1;
      }
      i := i + 1;
    }
    assert ts[..i] == ts;
    ValidCountIsAcceptedPositions(ts, offset, start, end);
  }

  /** A timestamp landing exactly on either edge of the window is accepted; one just outside is not. */
  lemma WindowIsClosed(start: real, duration: real, eps: real)
    requires duration >= 0.0 && eps > 0.0
    ensures ValidCount([start], 0.0, start, start + duration) == 1
    ensures ValidCount([start + duration], 0.0, start, start + duration) == 1
    ensures ValidCount([start - eps], 0.0, start, start + duration) == 0
    ensures ValidCount([start + duration + eps], 0.0, start, start + duration) == 0
  {
    assert [start][..0] == [];
    assert [start + duration][..0] == [];
    assert [start - eps][..0] == [];
    assert [start + duration + eps][..0] == [];
  }

}
